=== FILE: README.md ===
# Student JSON store: a Dafny model

The service keeps one JSON document per student, in a file named after the student id,
and lets HTTP clients read, write and delete any nested property of it through the URL
`/:studentId/:propertyName/...`. `students.js` does the work: each operation reads and
parses the student's file, runs one of the lodash path helpers `has`, `get`, `set` or
`unset` on the property path, and writes the whole document back when it changed.
`api.js` turns the URL into a dotted property path and the store's result into a
response.

The model is functional. Modules follow the program's layers:

- `ArrayIndex` (`array_index.dfy`): which property keys address array elements in
  JavaScript: canonical decimal strings below 2^32 - 1. `Decimal` and `ParseDecimal`
  are proved inverse on canonical keys.
- `JsonValues` (`json_values.dfy`): the `Json` datatype (Null, Bool, Num, Str, Arr,
  Obj) and the one-step property operations: own-property lookup (`Child`),
  assignment (`Put`) and `delete` (`Remove`). A document is always modelled as the
  value `JSON.stringify` persists. An array hole is therefore `null`. A non-index
  property put on an array vanishes.
- `PathAccess` (`path_access.dfy`): lodash `has`, `get`, `set` and `unset` as
  recursive functions over a path of string segments.
- `PathLaws` (`path_laws.dfy`): what `set` and `unset` change and what they leave alone.
- `Students` (`students.js` → `students.dfy`): the store is a map from student id to
  what reading that student's file yields: a parsed document, unparsable text, or a
  read error with its errno and code. An id with no entry has no file, and reading it
  fails with errno -2 / `ENOENT`. Each operation returns the new store and how its
  promise settles (`Resolved` or `Rejected`).
- `StudentLaws` (`student_laws.dfy`): read-after-write, framing, and repeated deletes.
- `Api` (`api.js` → `api.dfy`): `propertyPathFromReq`, the dot split standing in for
  lodash's path parsing, and the three handlers with their response decision tables.
- `Scenarios` (`scenarios.dfy`): the documented example documents, worked through.

Behaviour of the code as written that the model keeps:

- `setProperty` on a student with no file never creates one. `student` stays
  `undefined` (students.js:36-43). lodash `set` returns `undefined` unchanged.
  `JSON.stringify(undefined)` is `undefined`, and `fs.promises.writeFile` rejects that
  as data on current Node.js. The operation throws and nothing is written. See Findings.
- Deleting an array element uses JavaScript `delete`, which leaves a hole. The hole
  is persisted as `null`, so the path is still present afterwards, and a second
  identical DELETE answers 204 again (`StudentLaws.DeleteLeavesNullInArray`).
- `set` on a document that is not an object or array (a file holding `5`, say) changes
  nothing but still rewrites the file.

Read errors are rethrown as `fs` or `JSON.parse` threw them; the model keeps their
errno and code rather than sorting them into error kinds of its own.

## Model

| member | source | states |
|---|---|---|
| `JsonValues.Put` | students.js:45 | One assignment as persisted. An object member or array index key reads back the assigned value. Padding past an array's end fills with `null`. Other keys read as before when no array grows. A non-index key on an array leaves it unchanged. |
| `JsonValues.Remove` | students.js:64 | JavaScript `delete` as persisted. An object member is gone afterwards. An array element reads as `null`. Every other key reads as before. |
| `PathAccess.Get` | students.js:29 | lodash `get` with an `undefined` default: the empty path reads nothing, a one-segment path reads the own property, and a path whose first segment is missing reads nothing. |
| `PathLaws.GetAppend` | students.js:29 | Reading `p ++ q` is reading `q` inside the value found at `p`, and nothing when `p` is missing. |
| `PathAccess.Has` | students.js:28 | lodash `has` is true exactly when lodash `get` finds a value at the path, even when that value is `null` or `false`. |
| `PathAccess.Set` | students.js:45 | lodash `set` returns a non-object root untouched and keeps the root's kind. On an object or array root whose arrays on the path are indexed, the path afterwards reads exactly the assigned value. |
| `PathAccess.Unset` | students.js:64 | lodash `unset` keeps the root's kind and changes nothing when the path is absent. |
| `PathLaws.SetFrame` | students.js:45 | `set` leaves the presence and value of every path that is neither a prefix nor an extension of the assigned path as before, when no array grows. |
| `PathLaws.SetBuildsObjects` | students.js:45 | After `set`, every proper prefix of the path holds a container. Where the document had none, that container is an object, never an array. |
| `PathLaws.UnsetRemoves` | students.js:61-64 | Deleting a present path from an object parent makes it absent. From an array parent, it leaves `null` there. |
| `PathLaws.UnsetFrame` | students.js:64 | `unset` keeps the presence of every path that does not extend the deleted one. It keeps the value of every path that neither prefixes nor extends it. |
| `PathLaws.UnsetKeepsAncestors` | students.js:64 | After deleting a present path, each of its ancestors is still present, even if now empty. |
| `Students.Load` | students.js:20 | A student with no file reads as errno -2 / `ENOENT`. Unparsable text throws a SyntaxError. Any other read error is thrown with its own errno and code. The read succeeds exactly when the file parses. |
| `Students.Persist` | students.js:47 | Writing an `undefined` document is rejected and leaves the store unchanged. Writing a document makes a later read return exactly that document. No other student's entry changes. |
| `Students.GetProperty` | students.js:14-32 | Never changes the store. A missing file gives not-found and never throws. An unparsable file throws its SyntaxError. It throws exactly when the read fails with anything but ENOENT, and then throws the read's own error. The result is found exactly when the path is present, and then carries the stored value, `null` included. |
| `Students.SetProperty` | students.js:34-48 | Only ENOENT is swallowed: other read errors propagate and nothing is written. A missing file makes the write throw and no file appears. The operation resolves exactly when the file parses, and then the document is rewritten with the value set at the path. No other student's entry changes. |
| `Students.DeleteProperty` | students.js:50-67 | A missing file or absent path gives not-found with no write. Any other read failure is thrown as the read produced it, so an unparsable file throws its SyntaxError. The result is found exactly when the path is present, and only then is the store rewritten, with the path unset. No other student's entry changes. |
| `Students.SetPropertyCreating` | students.js:34-48 | Corrected `setProperty`, reading a missing file as `{}`. It resolves exactly when the read does not fail with a non-ENOENT error. When it resolves, the file holds the value set at the path, in `{}` if the file was missing and in the existing document otherwise. A missing file therefore ends up holding an object. Other students are unchanged. |
| `StudentLaws.SetThenGetProperty` | students.js:45-47 | On an existing object or array document, `setProperty(P, v)` followed by `getProperty(P)` finds exactly `v`. |
| `StudentLaws.SetPropertyFrame` | students.js:45 | On an existing document, `setProperty(P, v)` leaves `getProperty` of every path that neither prefixes nor extends `P` as it was. |
| `StudentLaws.SetPropertyOtherStudent` | students.js:69-72 | A write to one student leaves every read of every other student unchanged. |
| `StudentLaws.SetPropertyRethrows` | students.js:38-43 | A read failure other than ENOENT is thrown unchanged by `setProperty`, and the store is untouched. |
| `StudentLaws.MissingFileIsNotCreated` | students.js:36-47 | For a student with no file, `setProperty` throws, creates no file, and a later `getProperty` is still not-found. |
| `StudentLaws.CreatingThenGetProperty` | students.js:34-48 | With the corrected write, a student with no file gets one, and reading the written path back finds the value. |
| `StudentLaws.DeleteRemovesFromObject` | students.js:61-66 | For every path length, a top-level key included: a delete that found a path under an object parent leaves it not-found and every ancestor found. A second identical delete is not-found and writes nothing. |
| `StudentLaws.DeleteLeavesNullInArray` | students.js:61-66 | A delete that found an array element leaves the path found with `null`, so a second identical delete is found again. |
| `StudentLaws.DeletePropertyFrame` | students.js:61-66 | A delete leaves `getProperty` of every path that neither prefixes nor extends the deleted one as it was. |
| `Api.SlashesToDots` | api.js:50 | Same length. Each `/` becomes `.` and every other character is kept. No `/` remains. |
| `Api.PropertyPathFromReq` | api.js:49-51 | Starts with `propertyName` and is as long as `propertyName` and the splat together. Each splat `/` becomes `.` in place, every other splat character is kept, and no `/` survives. |
| `Api.SplitDots` | students.js:28 | How the dotted path string handed to lodash is read as segments: at least one segment, none containing `.`, and joining them with `.` gives the string back. A dot-free string is one segment. |
| `Api.RequestPath` | api.js:49-51 | The request's path segments contain no `.` and join with `.` into `propertyName` followed by the splat with its slashes turned into dots. |
| `Api.PropertyPathSegments` | api.js:49-51 | For a `propertyName` without `.` and a splat `/s1/.../sn` with no `.` or `/` in any segment, splitting the path on `.` gives `[propertyName] + [s1, ..., sn]`. Empty segments (`a//b`) stay empty segments. |
| `Api.GetStudentProperty` | api.js:14-25 | Never changes the store. Responds with exactly the stored value when the path is present, and calls `next()` when the file is missing. Raises exactly when the read fails with anything but ENOENT, and raises that read error. Never sends a bare status. |
| `Api.SetStudentProperty` | api.js:27-36 | Responds 204 exactly when the student's file parses, with the document rewritten with the value set at the path. Otherwise it raises and the store is unchanged. Any other read error is raised as the read produced it. A student with no file raises the write error. The store keeps the same students, and no other student's entry changes. |
| `Api.DeleteStudentProperty` | api.js:38-47 | Responds 204 exactly when the path is present. Calls `next()` exactly when the file is missing or the path absent. Raises exactly on other read errors, and raises the read's own error. The store always keeps the same students. It changes only on 204, when the student's document is rewritten with the path unset and no other student's entry changes. |
| `Scenarios.NestedRequestPath` | api.js:49-51 | The URL `/rn1abu8/address/street/number` addresses the path `address.street.number`. |
| `Scenarios.EmptyUrlSegment` | api.js:49-51 | The URL `/s1/a//b` addresses the path `["a", "", "b"]`: the empty URL segment is an empty path segment. |
| `Scenarios.OverwriteNestedNumber` | students.js:45-47 | Setting `address.street.number` to 26 in the example document changes only the number. |
| `Scenarios.NullIsNotMissing` | students.js:27-31 | A member holding `null` is found with `null`, and a missing member is not found. |
| `Scenarios.DeleteNestedMember` | students.js:61-66 | Deleting `address.street.number` leaves `{address:{street:{}}}`, and deleting it again is not-found. |
| `Scenarios.FirstGradeForNewStudent` | students.js:36-47 | For a new student, `PUT grade` throws as written. Corrected, it creates `{grade:{score:"80%"}}`. |
| `Scenarios.UnknownStudentIsNotFound` | api.js:20 | A GET for a student with no file calls `next()`, the not-found response. |

## Left out

- File I/O is replaced by a map keyed by student id. This covers `fs.promises.readFile`/`writeFile`, `path.join` normalisation and the `DATA_DIR` lookup (students.js:69-72). Two ids naming the same file after normalisation are not modelled.
- Write failures (permissions, full disk) are not modelled: `writeFile` always succeeds on a defined document. The source would propagate them as a rejected promise.
- The `undefined` write: the model follows current Node.js, where `fs.promises.writeFile` rejects `undefined` as data. Older versions wrote the text `undefined` instead, which a later read fails to parse. Either way no document is created.
- JSON text encoding is left out: `JSON.parse`/`JSON.stringify` text, object member order, floating-point numbers (numbers are integers), and `undefined`/`NaN` dropping. The request body is taken as an already-parsed JSON value.
- lodash path-string parsing is replaced by a plain split at every dot (`Api.SplitDots`). Bracket and quote syntax, and the shortcut that treats a key containing `.` as one segment, are left out. The lodash sources are not part of this model.
- `PathAccess.Set`: a missing or scalar intermediate always becomes `{}`. lodash creates `[]` when the next segment is an array index; that case is not modelled.
- Keys that reach JavaScript's inherited or built-in properties are not modelled. Examples: `constructor`, `__proto__` and `toString` resolved through `Object.prototype`, `length` on arrays and strings, and character indexes of strings. In the model a segment never resolves inside a string.
- `StudentLaws.SetThenGetProperty`: stated only for a document that is an object or array and a path that addresses each array it crosses by an element index. Elsewhere the source's `set` does not persist the value either: it leaves a scalar document alone and drops non-index array properties.
- `StudentLaws.SetPropertyFrame`: stated only when no array on the path grows. Assigning past an array's end pads it with `null`, which changes reads of the padded indexes.
- `PathLaws.SetFrame`: stated only when no array on the path grows, for the same reason.
- `StudentLaws.DeleteRemovesFromObject`: absence and idempotence are stated under an object parent only. Under an array parent the element persists as `null` (`StudentLaws.DeleteLeavesNullInArray`).
- `Api.PropertyPathSegments`: stated for URL segments without `.`. A dotted segment (`/a.b`) splits into several path segments, so the URL segments are not the path.
- server.js is transport glue and is left out: routing, body parsing, the health check (api.js:10-12) and `listen`. A rejected handler promise is recorded as the `Raised` response. Express 4 does not pass it to the error middleware.
- Concurrency is left out: the lost-update race between two read-modify-write operations on the same student, and write atomicity. Each operation is one atomic step of the model.
- test.js adds nothing to encode: every content test there is an unimplemented stub. Only its titles are used, for the Finding below.

## Findings

| source | as written | input that shows it | evidently intended | confidence | as-written member | corrected member |
|---|---|---|---|---|---|---|
| students.js:36-47 | When the file is missing, `student` stays `undefined` and `set` leaves it so. `writeFile` is then given `JSON.stringify(undefined)`, so no file is created and the call throws. | `PUT /s1/grade` with body `{"score":"80%"}` while `s1.json` does not exist | start from `{}` and create `s1.json` holding `{"grade":{"score":"80%"}}`, as the test title at test.js:35 says | not executed | `StudentLaws.MissingFileIsNotCreated` | `Students.SetPropertyCreating` |

The HTTP handlers model the code as written, so `Api.SetStudentProperty` uses `Students.SetProperty`. `StudentLaws.CreatingThenGetProperty` proves read-after-write for the corrected operation.

=== FILE: api.dfy ===
/** The HTTP handlers of the student API: how a request's route parameters become a
    property path, and how each store result becomes a response. */
module Api {
  import opened Options
  import opened JsonValues
  import opened PathAccess
  import opened Students

  /** `s.replace(/\//g, '.')`: every slash becomes a dot, every other character stays. */
  function SlashesToDots(s: string): (r: string)
    ensures |r| == |s|
    ensures forall i :: 0 <= i < |s| ==> r[i] == (if s[i] == '/' then '.' else s[i])
    ensures '/' !in r
  {
    if s == [] then [] else [if s[0] == '/' then '.' else s[0]] + SlashesToDots(s[1..])
  }

  /** `propertyPathFromReq`: the route's `propertyName` followed by the splat (everything
      after it, e.g. "/street/number") with its slashes turned into dots. */
  function PropertyPathFromReq(propertyName: string, splat: string): (r: string)
    ensures |r| == |propertyName| + |splat|
    ensures r[..|propertyName|] == propertyName
    ensures '/' !in r[|propertyName|..]
    ensures forall i :: 0 <= i < |splat| ==>
              r[|propertyName| + i] == (if splat[i] == '/' then '.' else splat[i])
  {
    var r := propertyName + SlashesToDots(splat);
    assert r[|propertyName|..] == SlashesToDots(splat);
    r
  }

  /** How lodash reads a plain dotted path: split at every dot, so "a.b" is ["a", "b"] and
      "a..b" is ["a", "", "b"]. */
  function SplitDots(s: string): (r: seq<string>)
    ensures |r| > 0
    ensures '.' !in s ==> r == [s]
    ensures forall i :: 0 <= i < |r| ==> '.' !in r[i]
    ensures r[0] + DotJoined(r[1..]) == s
    decreases |s|
  {
    if |s| == 0 then [""]
    else
      var rest := SplitDots(s[1..]);
      assert rest[0] + DotJoined(rest[1..]) == s[1..];
      if s[0] == '.' then
        var r := [""] + rest;
        assert r[1..] == rest;
        assert DotJoined(rest) == "." + rest[0] + DotJoined(rest[1..]);
        assert s == "." + s[1..];
        r
      else
        assert [s[0]] + s[1..] == s;
        var r := [[s[0]] + rest[0]] + rest[1..];
        assert r[1..] == rest[1..];
        r
  }

  /** The splat Express captures for the path segments after `propertyName`: "/a/b". */
  function SlashJoined(segments: seq<string>): string {
    if segments == [] then "" else "/" + segments[0] + SlashJoined(segments[1..])
  }

  /** Neither a dot nor a slash, possibly empty: a URL segment that survives the round trip. */
  predicate PlainSegment(s: string) {
    '.' !in s && '/' !in s
  }

  /** Splitting at a dot that follows a dot-free prefix yields that prefix first. */
  lemma {:induction false} SplitAfterPrefix(x: string, y: string)
    requires '.' !in x
    ensures SplitDots(x + "." + y) == [x] + SplitDots(y)
    decreases |x|
  {
    if |x| == 0 {
      assert x + "." + y == "." + y;
      assert ("." + y)[1..] == y;
    } else {
      assert (x + "." + y)[1..] == x[1..] + "." + y;
      SplitAfterPrefix(x[1..], y);
      assert [x[0]] + x[1..] == x;
    }
  }

  /** Segments joined with dots: the splat once its slashes are dots, ".a.b". */
  function DotJoined(segments: seq<string>): string {
    if segments == [] then "" else "." + segments[0] + DotJoined(segments[1..])
  }

  /** Turning the slashes of a slash-joined splat into dots gives the dot-joined segments. */
  lemma {:induction false} SlashJoinedToDots(segments: seq<string>)
    requires forall i :: 0 <= i < |segments| ==> '/' !in segments[i]
    ensures SlashesToDots(SlashJoined(segments)) == DotJoined(segments)
    decreases |segments|
  {
    if segments != [] {
      var s0 := segments[0];
      var rest := SlashJoined(segments[1..]);
      SlashJoinedToDots(segments[1..]);
      assert SlashJoined(segments) == "/" + (s0 + rest);
      SlashesToDotsAppend("/", s0 + rest);
      SlashesToDotsAppend(s0, rest);
      SlashesToDotsPlain(s0);
      assert SlashesToDots("/") == ".";
    }
  }

  /** A dot-free head followed by dot-joined dot-free segments splits back into them. */
  lemma {:induction false} SplitDotJoined(head: string, segments: seq<string>)
    requires '.' !in head
    requires forall i :: 0 <= i < |segments| ==> '.' !in segments[i]
    ensures SplitDots(head + DotJoined(segments)) == [head] + segments
    decreases |segments|
  {
    if segments == [] {
      assert head + DotJoined(segments) == head;
    } else {
      var s0 := segments[0];
      var tail := s0 + DotJoined(segments[1..]);
      SplitDotJoined(s0, segments[1..]);
      assert head + DotJoined(segments) == head + "." + tail;
      SplitAfterPrefix(head, tail);
    }
  }

  /** The property path of a request whose URL segments hold no dots is the URL segments
      themselves, `propertyName` first; an empty segment (`a//b`) stays an empty segment. */
  lemma {:induction false} PropertyPathSegments(propertyName: string, segments: seq<string>)
    requires '.' !in propertyName
    requires forall i :: 0 <= i < |segments| ==> PlainSegment(segments[i])
    ensures SplitDots(PropertyPathFromReq(propertyName, SlashJoined(segments))) == [propertyName] + segments
  {
    SlashJoinedToDots(segments);
    SplitDotJoined(propertyName, segments);
  }

  /** Replacing slashes works piecewise. */
  lemma SlashesToDotsAppend(a: string, b: string)
    ensures SlashesToDots(a + b) == SlashesToDots(a) + SlashesToDots(b)
  {
  }

  /** A string without slashes is left as it is. */
  lemma SlashesToDotsPlain(s: string)
    requires '/' !in s
    ensures SlashesToDots(s) == s
  {
  }

  /** What a handler does with the response. */
  datatype Response =
    | Next                        // `next()`: on to the not-found middleware
    | SendJson(body: Json)        // `res.json(value)`, status 200
    | SendStatus(code: nat)       // `res.sendStatus(code)`, no body
    | Raised(fault: Fault)        // the handler's promise rejects with the store's error

  /** The store after a request, with the response the handler produced. */
  datatype Exchange = Exchange(store: Store, response: Response)

  /** The property path a request addresses. */
  function RequestPath(propertyName: string, splat: string): (r: Path)
    ensures |r| > 0
    ensures forall i :: 0 <= i < |r| ==> '.' !in r[i]
    ensures r[0] + DotJoined(r[1..]) == propertyName + SlashesToDots(splat)
  {
    SplitDots(PropertyPathFromReq(propertyName, splat))
  }

  /** `getStudentProperty`: the stored value as JSON when the path is present, `next()` when
      the file or the path is missing. */
  function GetStudentProperty(st: Store, studentId: StudentId, propertyName: string, splat: string): (r: Exchange)
    ensures r.store == st
    ensures r.response.SendJson? <==>
              studentId in st && st[studentId].Parsed? && Has(st[studentId].doc, RequestPath(propertyName, splat))
    ensures r.response.SendJson? ==>
              Get(st[studentId].doc, RequestPath(propertyName, splat)) == Some(r.response.body)
    ensures r.response.Raised? <==> ReadFails(st, studentId)
    ensures r.response.Raised? ==> r.response.fault == Load(st, studentId).error
    ensures studentId !in st ==> r.response == Next
    ensures !r.response.SendStatus?
  {
    var result := GetProperty(st, studentId, RequestPath(propertyName, splat));
    match result.outcome
    case Rejected(f) => Exchange(st, Raised(f))
    case Resolved(lookup) =>
      if !lookup.Found? then Exchange(st, Next) else Exchange(st, SendJson(lookup.value))
  }

  /** `setStudentProperty`: status 204 once the write resolves, whatever it wrote. */
  function SetStudentProperty(st: Store, studentId: StudentId, propertyName: string, splat: string, body: Json): (r: Exchange)
    ensures r.response == SendStatus(204) <==> studentId in st && st[studentId].Parsed?
    ensures r.response != SendStatus(204) ==> r.response.Raised? && r.store == st
    ensures studentId !in st ==> r.response == Raised(InvalidArgType)
    ensures r.response == SendStatus(204) ==> r.store.Keys == st.Keys
    ensures r.response.Raised? ==>
              r.response.fault == (if ReadFails(st, studentId) then Load(st, studentId).error else InvalidArgType)
    ensures r.response == SendStatus(204) ==>
              Load(r.store, studentId) == Ok(Set(st[studentId].doc, RequestPath(propertyName, splat), body))
    ensures forall other :: other in st && other != studentId ==> other in r.store && r.store[other] == st[other]
  {
    var result := SetProperty(st, studentId, RequestPath(propertyName, splat), body);
    match result.outcome
    case Rejected(f) => Exchange(result.store, Raised(f))
    case Resolved(_) => Exchange(result.store, SendStatus(204))
  }

  /** `deleteStudentProperty`: status 204 when the path was present and is now deleted,
      `next()` when the file or the path is missing. */
  function DeleteStudentProperty(st: Store, studentId: StudentId, propertyName: string, splat: string): (r: Exchange)
    ensures r.response == SendStatus(204) <==>
              studentId in st && st[studentId].Parsed? && Has(st[studentId].doc, RequestPath(propertyName, splat))
    ensures r.response == Next <==>
              ReadsAsMissing(st, studentId) || (studentId in st && st[studentId].Parsed? && !Has(st[studentId].doc, RequestPath(propertyName, splat)))
    ensures r.response.Raised? <==> ReadFails(st, studentId)
    ensures r.response != SendStatus(204) ==> r.store == st
    ensures r.store.Keys == st.Keys
    ensures r.response.Raised? ==> r.response.fault == Load(st, studentId).error
    ensures r.response == SendStatus(204) ==>
              Load(r.store, studentId) == Ok(Unset(st[studentId].doc, RequestPath(propertyName, splat)))
    ensures forall other :: other in st && other != studentId ==> other in r.store && r.store[other] == st[other]
  {
    var result := DeleteProperty(st, studentId, RequestPath(propertyName, splat));
    match result.outcome
    case Rejected(f) => Exchange(result.store, Raised(f))
    case Resolved(isFound) =>
      if !isFound then Exchange(result.store, Next) else Exchange(result.store, SendStatus(204))
  }
}

=== FILE: array_index.dfy ===
/** Array-index property keys. A JavaScript array holds its elements under string keys:
    a key addresses an element exactly when it is the canonical decimal rendering of an
    integer below 2^32 - 1 ("0", "7", "42", but not "07", "-1" or "1.0"). Every other key
    is an ordinary property, which JSON.stringify does not persist for arrays. */
module ArrayIndex {
  import opened Options

  /** The largest array length; indexes run from 0 to MAX_ARRAY_LENGTH - 1. */
  const MAX_ARRAY_LENGTH: nat := 4294967295

  predicate IsDigit(c: char) {
    '0' <= c <= '9'
  }

  predicate AllDigits(s: string) {
    forall i :: 0 <= i < |s| ==> IsDigit(s[i])
  }

  /** At least one digit, no sign, and no leading zero unless the key is "0" itself. */
  predicate IsCanonical(s: string) {
    |s| > 0 && AllDigits(s) && (s[0] == '0' ==> |s| == 1)
  }

  function DigitValue(c: char): (d: nat)
    requires IsDigit(c)
    ensures d < 10
  {
    (c as int) - ('0' as int)
  }

  function DigitChar(d: nat): (c: char)
    requires d < 10
    ensures IsDigit(c) && DigitValue(c) == d
  {
    (('0' as int) + d) as char
  }

  /** The number a string of decimal digits denotes. */
  function ParseDecimal(s: string): nat
    requires AllDigits(s)
    decreases |s|
  {
    if s == [] then 0 else 10 * ParseDecimal(s[..|s| - 1]) + DigitValue(s[|s| - 1])
  }

  /** The canonical decimal rendering of n (JavaScript's ToString on a non-negative integer). */
  function Decimal(n: nat): (s: string)
    ensures IsCanonical(s)
    ensures ParseDecimal(s) == n
    ensures n > 0 ==> s[0] != '0'
    decreases n
  {
    if n < 10 then [DigitChar(n)]
    else
      var prefix := Decimal(n / 10);
      var s := prefix + [DigitChar(n % 10)];
      assert s[..|s| - 1] == prefix;
      s
  }

  /** The element index a property key addresses on an array, if any. */
  function IndexOf(k: string): (r: Option<nat>)
    ensures r.Some? ==> r.value < MAX_ARRAY_LENGTH && Decimal(r.value) == k
    ensures r.None? ==> !IsCanonical(k) || ParseDecimal(k) >= MAX_ARRAY_LENGTH
  {
    if IsCanonical(k) && ParseDecimal(k) < MAX_ARRAY_LENGTH then
      DecimalOfParse(k);
      Some(ParseDecimal(k))
    else None
  }

  /** A digit string with a non-zero leading digit denotes a positive number. */
  lemma {:induction false} ParsePositive(s: string)
    requires |s| > 0 && AllDigits(s) && s[0] != '0'
    ensures ParseDecimal(s) > 0
    decreases |s|
  {
    if |s| > 1 {
      ParsePositive(s[..|s| - 1]);
    }
  }

  /** Rendering what a canonical key denotes gives the key back. */
  lemma {:induction false} DecimalOfParse(s: string)
    requires IsCanonical(s)
    ensures Decimal(ParseDecimal(s)) == s
    decreases |s|
  {
    if |s| > 1 {
      var init := s[..|s| - 1];
      assert IsCanonical(init);
      ParsePositive(init);
      DecimalOfParse(init);
      var n := ParseDecimal(s);
      assert n / 10 == ParseDecimal(init);
      assert n % 10 == DigitValue(s[|s| - 1]);
      assert s == init + [s[|s| - 1]];
    }
  }
}

=== FILE: json_values.dfy ===
/** JSON documents as the store persists them, and the one-step property operations
    JavaScript performs on a parsed document: own-property lookup, assignment and
    `delete`. Each operation returns the document JSON.stringify would write afterwards,
    so array holes appear as `null` and ordinary properties put on an array disappear. */
module JsonValues {
  import opened Options
  import ArrayIndex

  /** A JSON value. Numbers are integers; object member order is not modelled. */
  datatype Json =
    | Null
    | Bool(b: bool)
    | Num(n: int)
    | Str(s: string)
    | Arr(items: seq<Json>)
    | Obj(fields: map<string, Json>)
  {
    /** Objects and arrays hold children; the scalars hold none. */
    predicate IsContainer() {
      Arr? || Obj?
    }
  }

  /** An empty JSON object, `{}`. */
  const EmptyObject: Json := Obj(map[])

  /** n copies of `null`: the holes an array assignment past the end leaves behind. */
  function Nulls(n: nat): (r: seq<Json>)
    ensures |r| == n
    ensures forall i :: 0 <= i < n ==> r[i] == Null
  {
    if n == 0 then [] else Nulls(n - 1) + [Null]
  }

  /** The own property `k` of `j`: an object member, or an array element under its index key. */
  function Child(j: Json, k: string): (r: Option<Json>)
    ensures r.Some? ==> j.IsContainer()
    ensures j.Obj? ==> (r.Some? <==> k in j.fields)
    ensures j.Arr? && r.Some? ==> ArrayIndex.IndexOf(k).Some? && ArrayIndex.IndexOf(k).value < |j.items|
  {
    match j
    case Obj(m) => if k in m then Some(m[k]) else None
    case Arr(a) =>
      var i := ArrayIndex.IndexOf(k);
      if i.Some? && i.value < |a| then Some(a[i.value]) else None
    case _ => None
  }

  /** True when assigning `k` on `c` writes an element or member that the persisted document keeps. */
  predicate Addressable(c: Json, k: string) {
    c.Obj? || (c.Arr? && ArrayIndex.IndexOf(k).Some?)
  }

  /** True when assigning `k` on `c` does not lengthen an array. */
  predicate KeepsLength(c: Json, k: string) {
    c.Arr? ==> (ArrayIndex.IndexOf(k).None? || ArrayIndex.IndexOf(k).value < |c.items|)
  }

  /** `c[k] = v` on a container, as persisted: an object gains or overwrites member `k`; an
      array has the element at index `k` replaced, or is padded with nulls up to it; any other
      key on an array names a property JSON.stringify drops, so the array is unchanged. */
  function Put(c: Json, k: string, v: Json): (r: Json)
    requires c.IsContainer()
    ensures r.Obj? == c.Obj? && r.Arr? == c.Arr?
    ensures Addressable(c, k) ==> Child(r, k) == Some(v)
    ensures !Addressable(c, k) ==> r == c
    ensures forall k' :: k' != k && KeepsLength(c, k) ==> Child(r, k') == Child(c, k')
    ensures Child(c, k) == Some(v) ==> r == c
    ensures c.Arr? && ArrayIndex.IndexOf(k).Some? && ArrayIndex.IndexOf(k).value >= |c.items| ==>
              && |r.items| == ArrayIndex.IndexOf(k).value + 1
              && r.items[..|c.items|] == c.items
              && forall i :: |c.items| <= i < ArrayIndex.IndexOf(k).value ==> r.items[i] == Null
  {
    match c
    case Obj(m) => Obj(m[k := v])
    case Arr(a) =>
      match ArrayIndex.IndexOf(k)
      case None => c
      case Some(i) =>
        if i < |a| then Arr(a[i := v]) else Arr(a + Nulls(i - |a|) + [v])
  }

  /** `delete c[k]`, as persisted: an object loses member `k`; an array element is left as a
      hole, which persists as `null`; a key that is not an own property changes nothing. */
  function Remove(c: Json, k: string): (r: Json)
    ensures r.Obj? == c.Obj? && r.Arr? == c.Arr?
    ensures c.Obj? ==> Child(r, k).None?
    ensures c.Arr? && Child(c, k).Some? ==> Child(r, k) == Some(Null)
    ensures Child(c, k).None? ==> r == c
    ensures forall k' :: k' != k ==> Child(r, k') == Child(c, k')
  {
    match c
    case Obj(m) => Obj(m - {k})
    case Arr(a) =>
      var i := ArrayIndex.IndexOf(k);
      if i.Some? && i.value < |a| then Arr(a[i.value := Null]) else c
    case _ => c
  }
}

=== FILE: options.dfy ===
/** Small failure-carrying wrappers used across the model. */
module Options {

  /** A value that may be absent; `None` plays the part of JavaScript's `undefined`. */
  datatype Option<+T> = None | Some(value: T)

  /** Either a value or the error that prevented computing it. */
  datatype Result<+T, +E> = Ok(value: T) | Err(error: E)
}

=== FILE: path_access.dfy ===
/** The lodash path helpers `has`, `get`, `set` and `unset`, over a property path that is
    already split into segments. Each walks the document one own property at a time. */
module PathAccess {
  import opened Options
  import opened JsonValues

  /** A property path such as ["address", "street", "number"]. */
  type Path = seq<string>

  /** The value reached by following the segments of `p` from `j`; the empty path reaches `j`. */
  function Walk(j: Json, p: Path): Option<Json>
    decreases |p|
  {
    if |p| == 0 then Some(j)
    else
      match Child(j, p[0])
      case None => None
      case Some(c) => Walk(c, p[1..])
  }

  /** lodash `get` with an `undefined` default: the value at `p`, or None when a segment is
      missing. Like lodash, an empty path reads nothing. */
  function Get(j: Json, p: Path): (r: Option<Json>)
    ensures r.Some? ==> |p| > 0
    ensures |p| == 1 ==> r == Child(j, p[0])
    ensures |p| > 1 && Child(j, p[0]).None? ==> r.None?
  {
    if |p| == 0 then None
    else
      assert |p| == 1 && Child(j, p[0]).Some? ==> Walk(Child(j, p[0]).value, p[1..]) == Child(j, p[0]);
      Walk(j, p)
  }

  /** lodash `has`: each segment is an own property of the value the previous segments reach,
      whatever the last one holds (`null` and `false` included). */
  function Has(j: Json, p: Path): (r: bool)
    ensures r <==> Get(j, p).Some?
    ensures r ==> Child(j, p[0]).Some?
    decreases |p|
  {
    if |p| == 0 then false
    else
      match Child(j, p[0])
      case None => false
      case Some(c) =>
        if |p| == 1 then assert Walk(c, p[1..]) == Some(c); true
        else Has(c, p[1..])
  }

  /** The container lodash `unset` deletes from: the value at every segment but the last. */
  function Parent(j: Json, p: Path): Option<Json>
    requires |p| > 0
  {
    Walk(j, p[..|p| - 1])
  }

  /** The container `set` descends into below a segment: the existing child when it is a
      container, otherwise a fresh empty object that replaces whatever was there. */
  function Scaffold(o: Option<Json>): (r: Json)
    ensures r.IsContainer()
    ensures r.Arr? ==> o == Some(r)
    ensures o.Some? && o.value.IsContainer() ==> r == o.value
  {
    if o.Some? && o.value.IsContainer() then o.value else EmptyObject
  }

  /** Every array `set` passes through along `p` is addressed by an element index, so what
      `set` assigns there survives JSON.stringify. */
  predicate ArraysIndexed(c: Json, p: Path)
    requires c.IsContainer()
    decreases |p|
  {
    |p| > 0 && Addressable(c, p[0])
    && (|p| > 1 && Child(c, p[0]).Some? && Child(c, p[0]).value.IsContainer() ==>
          ArraysIndexed(Child(c, p[0]).value, p[1..]))
  }

  /** No array `set` passes through along `p` is assigned past its end, so no array grows. */
  predicate ArraysKeepLength(c: Json, p: Path)
    requires c.IsContainer()
    decreases |p|
  {
    |p| > 0 && KeepsLength(c, p[0])
    && (|p| > 1 && Child(c, p[0]).Some? && Child(c, p[0]).value.IsContainer() ==>
          ArraysKeepLength(Child(c, p[0]).value, p[1..]))
  }

  /** lodash `set` below a container: every segment but the last descends into the existing
      container or into a fresh object, and the last segment is assigned `v`. */
  function Assign(c: Json, p: Path, v: Json): (r: Json)
    requires c.IsContainer() && |p| > 0
    ensures r.Obj? == c.Obj? && r.Arr? == c.Arr?
    ensures ArraysIndexed(c, p) ==> Get(r, p) == Some(v)
    decreases |p|
  {
    if |p| == 1 then
      var r := Put(c, p[0], v);
      assert Addressable(c, p[0]) ==> Walk(v, p[1..]) == Some(v);
      r
    else Put(c, p[0], Assign(Scaffold(Child(c, p[0])), p[1..], v))
  }

  /** lodash `set`: a document that is not an object or array, or an empty path, is returned
      untouched; otherwise the value is assigned at `p`. */
  function Set(j: Json, p: Path, v: Json): (r: Json)
    ensures r.Obj? == j.Obj? && r.Arr? == j.Arr?
    ensures !j.IsContainer() ==> r == j
    ensures j.IsContainer() && ArraysIndexed(j, p) ==> Get(r, p) == Some(v)
  {
    if j.IsContainer() && |p| > 0 then Assign(j, p, v) else j
  }

  /** lodash `unset`: when the path is present, its last segment is deleted from the parent
      container and the ancestors are rebuilt around it; otherwise nothing changes. */
  function Unset(j: Json, p: Path): (r: Json)
    ensures r.Obj? == j.Obj? && r.Arr? == j.Arr?
    ensures !Has(j, p) ==> r == j
    decreases |p|
  {
    if |p| == 0 then j
    else
      match Child(j, p[0])
      case None => j
      case Some(c) =>
        if |p| == 1 then Remove(j, p[0]) else Put(j, p[0], Unset(c, p[1..]))
  }
}

=== FILE: path_laws.dfy ===
/** Laws of the lodash path helpers: what `set` and `unset` change, and what they leave alone. */
module PathLaws {
  import opened Options
  import opened JsonValues
  import opened PathAccess

  /** Below a container, `set` changes no path that diverges from the one it assigns. */
  lemma {:induction false} AssignFrame(c: Json, p: Path, q: Path, v: Json)
    requires c.IsContainer() && |p| > 0 && ArraysKeepLength(c, p)
    requires !(q <= p) && !(p <= q)
    ensures Get(Assign(c, p, v), q) == Get(c, q)
    decreases |p|
  {
    var k := p[0];
    var r := Assign(c, p, v);
    if q[0] != k {
      assert Child(r, q[0]) == Child(c, q[0]);
      assert Walk(r, q) == Walk(c, q);
    } else if Addressable(c, k) {
      var base := Scaffold(Child(c, k));
      var nc := Assign(base, p[1..], v);
      AssignFrame(base, p[1..], q[1..], v);
      assert Child(r, k) == Some(nc);
      assert Walk(r, q) == Walk(nc, q[1..]);
      match Child(c, k)
      case None =>
      case Some(x) =>
        assert Walk(c, q) == Walk(x, q[1..]);
    }
  }

  /** `set` leaves every path that is neither a prefix nor an extension of the assigned one
      reading exactly as before, provided no array along the way is grown. */
  lemma SetFrame(j: Json, p: Path, q: Path, v: Json)
    requires j.IsContainer() ==> ArraysKeepLength(j, p)
    requires !(q <= p) && !(p <= q)
    ensures Get(Set(j, p, v), q) == Get(j, q)
    ensures Has(Set(j, p, v), q) == Has(j, q)
  {
    if j.IsContainer() && |p| > 0 {
      AssignFrame(j, p, q, v);
    }
  }

  /** Below a container, `set` leaves a container at every proper prefix of the assigned
      path; where the document held no container there, the one it leaves is an object. */
  lemma {:induction false} AssignBuildsObjects(c: Json, p: Path, v: Json, i: nat)
    requires c.IsContainer() && ArraysIndexed(c, p)
    requires 0 < i < |p|
    ensures Get(Assign(c, p, v), p[..i]).Some?
    ensures Get(Assign(c, p, v), p[..i]).value.IsContainer()
    ensures !(Get(c, p[..i]).Some? && Get(c, p[..i]).value.IsContainer()) ==>
              Get(Assign(c, p, v), p[..i]).value.Obj?
    decreases |p|
  {
    var k := p[0];
    var base := Scaffold(Child(c, k));
    var nc := Assign(base, p[1..], v);
    var r := Assign(c, p, v);
    assert Child(r, k) == Some(nc);
    assert p[..i][1..] == p[1..][..i - 1];
    assert Walk(r, p[..i]) == Walk(nc, p[1..][..i - 1]);
    if i > 1 {
      AssignBuildsObjects(base, p[1..], v, i - 1);
      match Child(c, k)
      case None =>
      case Some(x) =>
        assert Walk(c, p[..i]) == Walk(x, p[1..][..i - 1]);
    } else {
      match Child(c, k)
      case None =>
      case Some(x) =>
        assert Walk(c, p[..i]) == Walk(x, []);
    }
  }

  /** `set` on an object or array creates only objects for missing intermediate segments. */
  lemma SetBuildsObjects(j: Json, p: Path, v: Json, i: nat)
    requires j.IsContainer() && ArraysIndexed(j, p)
    requires 0 < i < |p|
    ensures Get(Set(j, p, v), p[..i]).Some?
    ensures Get(Set(j, p, v), p[..i]).value.IsContainer()
    ensures !(Get(j, p[..i]).Some? && Get(j, p[..i]).value.IsContainer()) ==>
              Get(Set(j, p, v), p[..i]).value.Obj?
  {
    AssignBuildsObjects(j, p, v, i);
  }

  /** A present path is present at each of its non-empty prefixes. */
  lemma {:induction false} HasPrefix(j: Json, p: Path, i: nat)
    requires Has(j, p) && 0 < i <= |p|
    ensures Has(j, p[..i])
    decreases |p|
  {
    if i > 1 {
      var c := Child(j, p[0]).value;
      assert p[..i][1..] == p[1..][..i - 1];
      HasPrefix(c, p[1..], i - 1);
    }
  }

  /** `unset` of a present path removes it when its parent is an object; when the parent is
      an array the element is left as a hole, which is persisted as `null`. */
  lemma {:induction false} UnsetRemoves(j: Json, p: Path)
    requires Has(j, p)
    ensures Parent(j, p).Some? && Parent(j, p).value.IsContainer()
    ensures Parent(j, p).value.Obj? ==> !Has(Unset(j, p), p)
    ensures Parent(j, p).value.Arr? ==> Get(Unset(j, p), p) == Some(Null)
    decreases |p|
  {
    var k := p[0];
    var c := Child(j, k).value;
    if |p| == 1 {
      assert Parent(j, p) == Some(j);
      assert Get(Unset(j, p), p) == Walk(Remove(j, k), p);
    } else {
      UnsetRemoves(c, p[1..]);
      assert p[..|p| - 1][1..] == p[1..][..|p| - 2];
      assert Parent(j, p) == Parent(c, p[1..]);
      var r := Unset(j, p);
      assert Child(r, k) == Some(Unset(c, p[1..]));
      assert Walk(r, p) == Walk(Unset(c, p[1..]), p[1..]);
    }
  }

  /** `unset` keeps the presence of every path that does not extend the removed one, and
      the value of every path that is neither a prefix nor an extension of it. */
  lemma {:induction false} UnsetFrame(j: Json, p: Path, q: Path)
    requires !(p <= q)
    ensures Has(Unset(j, p), q) == Has(j, q)
    ensures !(q <= p) ==> Get(Unset(j, p), q) == Get(j, q)
    decreases |p|
  {
    if |q| > 0 && Child(j, p[0]).Some? {
      var k := p[0];
      var c := Child(j, k).value;
      var r := Unset(j, p);
      if q[0] != k {
        assert Child(r, q[0]) == Child(j, q[0]);
        assert Walk(r, q) == Walk(j, q);
      } else {
        assert Child(r, k) == Some(Unset(c, p[1..]));
        if |q| > 1 {
          UnsetFrame(c, p[1..], q[1..]);
          assert !(q <= p) ==> !(q[1..] <= p[1..]) by {
            if q[1..] <= p[1..] { assert p == [k] + p[1..] && q == [k] + q[1..]; }
          }
          assert Walk(r, q) == Walk(Unset(c, p[1..]), q[1..]);
        }
      }
    }
  }

  /** After `unset` of a present path every ancestor container is still there. */
  lemma UnsetKeepsAncestors(j: Json, p: Path, i: nat)
    requires Has(j, p) && 0 < i < |p|
    ensures Has(Unset(j, p), p[..i])
  {
    HasPrefix(j, p, i);
    UnsetFrame(j, p, p[..i]);
  }

  /** Reading a path in two steps is reading it in one: `get(j, p ++ q)` is `get` of `q`
      in the value `get(j, p)` finds, and nothing when `p` is missing. */
  lemma {:induction false} GetAppend(j: Json, p: Path, q: Path)
    requires |p| > 0 && |q| > 0
    ensures Get(j, p + q) == (if Get(j, p).Some? then Get(Get(j, p).value, q) else None)
    decreases |p|
  {
    match Child(j, p[0])
    case None =>
    case Some(c) =>
      assert (p + q)[1..] == p[1..] + q;
      if |p| > 1 {
        GetAppend(c, p[1..], q);
      }
  }
}

=== FILE: scenarios.dfy ===
/** Concrete requests against small stores: the documented example documents, worked
    through the model. */
module Scenarios {
  import opened Options
  import opened JsonValues
  import opened Students
  import opened Api

  const Street: Json := Obj(map["name" := Str("Rua Road"), "number" := Num(67)])
  const Student: Json := Obj(map["address" := Obj(map["street" := Street])])

  /** The URL /rn1abu8/address/street/number addresses the path address.street.number. */
  lemma NestedRequestPath()
    ensures RequestPath("address", "/street/number") == ["address", "street", "number"]
  {
    var segments := ["street", "number"];
    assert PlainSegment("street") && PlainSegment("number");
    assert segments[1..] == ["number"] && segments[1..][1..] == [];
    assert SlashJoined(segments) == "/street/number";
    PropertyPathSegments("address", segments);
  }

  /** An empty URL segment, as in /s1/a//b, stays an empty path segment: a.<empty>.b. */
  lemma EmptyUrlSegment()
    ensures RequestPath("a", "//b") == ["a", "", "b"]
  {
    var segments := ["", "b"];
    assert PlainSegment("") && PlainSegment("b");
    assert segments[1..] == ["b"] && segments[1..][1..] == [];
    assert SlashJoined(segments) == "//b";
    PropertyPathSegments("a", segments);
  }

  /** Setting address.street.number to 26 overwrites only the house number. */
  lemma OverwriteNestedNumber()
    ensures SetProperty(map["rn1abu8" := Parsed(Student)], "rn1abu8", ["address", "street", "number"], Num(26))
      == Step(map["rn1abu8" := Parsed(Obj(map["address" := Obj(map["street" :=
           Obj(map["name" := Str("Rua Road"), "number" := Num(26)])])]))], Resolved(()))
  {
    var p: PathAccess.Path := ["address", "street", "number"];
    var address := Obj(map["street" := Street]);
    var street' := Obj(map["name" := Str("Rua Road"), "number" := Num(26)]);
    assert Street.fields["number" := Num(26)] == street'.fields;
    assert PathAccess.Assign(Street, p[2..], Num(26)) == street';
    assert PathAccess.Assign(address, p[1..], Num(26)) == Obj(map["street" := street']);
    assert PathAccess.Set(Student, p, Num(26)) == Obj(map["address" := Obj(map["street" := street'])]);
  }

  /** A member holding `null` is found with value `null`; a missing member is not found. */
  lemma NullIsNotMissing()
    ensures GetProperty(map["s" := Parsed(Obj(map["iAmNull" := Null]))], "s", ["iAmNull"]).outcome
              == Resolved(Found(Null))
    ensures GetProperty(map["s" := Parsed(Obj(map["iAmNull" := Null]))], "s", ["missing"]).outcome
              == Resolved(NotFound)
  {
  }

  /** Deleting a nested member keeps its now-empty parent; deleting it again finds nothing. */
  lemma DeleteNestedMember()
    ensures var first := DeleteProperty(map["s" := Parsed(Obj(map["address" := Obj(map["street" :=
              Obj(map["number" := Num(67)])])]))], "s", ["address", "street", "number"]);
      first.outcome == Resolved(true)
      && first.store == map["s" := Parsed(Obj(map["address" := Obj(map["street" := EmptyObject])]))]
      && DeleteProperty(first.store, "s", ["address", "street", "number"]).outcome == Resolved(false)
  {
    var p: PathAccess.Path := ["address", "street", "number"];
    var street := Obj(map["number" := Num(67)]);
    var address := Obj(map["street" := street]);
    var doc := Obj(map["address" := address]);
    assert street.fields - {"number"} == map[];
    assert PathAccess.Unset(street, p[2..]) == EmptyObject;
    assert PathAccess.Unset(address, p[1..]) == Obj(map["street" := EmptyObject]);
    assert PathAccess.Unset(doc, p) == Obj(map["address" := Obj(map["street" := EmptyObject])]);
  }

  /** PUT /s/grade on a student with no file: as written the write throws and no file
      appears; read as `{}` the file is created holding {grade: {score: "80%"}}. */
  lemma FirstGradeForNewStudent()
    ensures SetProperty(map[], "s", ["grade"], Obj(map["score" := Str("80%")])) ==
              Step(map[], Rejected(InvalidArgType))
    ensures SetPropertyCreating(map[], "s", ["grade"], Obj(map["score" := Str("80%")])).store ==
              map["s" := Parsed(Obj(map["grade" := Obj(map["score" := Str("80%")])]))]
  {
  }

  /** Reading a property of a student with no file is not found, not an error. */
  lemma UnknownStudentIsNotFound()
    ensures GetStudentProperty(map[], "nobody", "address", "").response == Next
  {
  }
}

=== FILE: student_laws.dfy ===
/** Laws of the student store that relate several operations: reading back what was
    written, what a write leaves alone, and what repeating a delete does. */
module StudentLaws {
  import opened Options
  import opened JsonValues
  import opened PathAccess
  import opened PathLaws
  import opened Students

  /** After a write to an existing object or array document, reading the same path finds
      exactly the value written, whatever it is (`null`, `false`, `0` and `""` included). */
  lemma SetThenGetProperty(st: Store, id: StudentId, p: Path, v: Json)
    requires id in st && st[id].Parsed? && st[id].doc.IsContainer()
    requires ArraysIndexed(st[id].doc, p)
    ensures SetProperty(st, id, p, v).outcome == Resolved(())
    ensures GetProperty(SetProperty(st, id, p, v).store, id, p).outcome == Resolved(Found(v))
  {
  }

  /** A write leaves every other path of the student reading as before: presence and value
      of every path that is neither a prefix nor an extension of the written one. */
  lemma SetPropertyFrame(st: Store, id: StudentId, p: Path, q: Path, v: Json)
    requires id in st && st[id].Parsed?
    requires st[id].doc.IsContainer() ==> ArraysKeepLength(st[id].doc, p)
    requires !(q <= p) && !(p <= q)
    ensures GetProperty(SetProperty(st, id, p, v).store, id, q).outcome == GetProperty(st, id, q).outcome
  {
    var after := SetProperty(st, id, p, v).store;
    assert after[id].doc == Set(st[id].doc, p, v);
    SetFrame(st[id].doc, p, q, v);
  }

  /** A write to one student leaves every read of every other student unchanged. */
  lemma SetPropertyOtherStudent(st: Store, id: StudentId, other: StudentId, p: Path, q: Path, v: Json)
    requires other != id
    ensures GetProperty(SetProperty(st, id, p, v).store, other, q).outcome == GetProperty(st, other, q).outcome
  {
  }

  /** A write whose read fails with anything but "file not found" throws that error and
      writes nothing; an unparsable file in particular throws the SyntaxError. */
  lemma SetPropertyRethrows(st: Store, id: StudentId, p: Path, v: Json)
    requires ReadFails(st, id)
    ensures SetProperty(st, id, p, v) == Step(st, Rejected(Load(st, id).error))
    ensures !IsFileNotFound(Load(st, id).error)
  {
  }

  /** The store as written never gains a document for a student without a file: the write
      throws and a later read still finds nothing, although the test title at test.js:35
      promises the file is created. */
  lemma MissingFileIsNotCreated(st: Store, id: StudentId, p: Path, v: Json)
    requires id !in st
    ensures SetProperty(st, id, p, v).outcome == Rejected(InvalidArgType)
    ensures id !in SetProperty(st, id, p, v).store
    ensures GetProperty(SetProperty(st, id, p, v).store, id, p).outcome == Resolved(NotFound)
  {
  }

  /** With a missing file read as `{}`, the first write creates the document and reading the
      written path back finds the value. */
  lemma CreatingThenGetProperty(st: Store, id: StudentId, p: Path, v: Json)
    requires id !in st && |p| > 0
    ensures SetPropertyCreating(st, id, p, v).outcome == Resolved(())
    ensures GetProperty(SetPropertyCreating(st, id, p, v).store, id, p).outcome == Resolved(Found(v))
  {
  }

  /** A successful delete under an object parent leaves the path absent, keeps its ancestors,
      and makes a second identical delete a no-op that reports not-found. */
  lemma DeleteRemovesFromObject(st: Store, id: StudentId, p: Path)
    requires DeleteProperty(st, id, p).outcome == Resolved(true)
    requires Parent(st[id].doc, p).Some? && Parent(st[id].doc, p).value.Obj?
    ensures GetProperty(DeleteProperty(st, id, p).store, id, p).outcome == Resolved(NotFound)
    ensures forall i :: 0 < i < |p| ==>
              GetProperty(DeleteProperty(st, id, p).store, id, p[..i]).outcome.Resolved? &&
              GetProperty(DeleteProperty(st, id, p).store, id, p[..i]).outcome.value.Found?
    ensures DeleteProperty(DeleteProperty(st, id, p).store, id, p) ==
              Step(DeleteProperty(st, id, p).store, Resolved(false))
  {
    var d := st[id].doc;
    UnsetRemoves(d, p);
    forall i | 0 < i < |p|
      ensures Has(Unset(d, p), p[..i])
    {
      UnsetKeepsAncestors(d, p, i);
    }
  }

  /** Deleting an array element leaves `null` in its place once persisted, so the path still
      reads as found and a second identical delete reports found again. */
  lemma DeleteLeavesNullInArray(st: Store, id: StudentId, p: Path)
    requires DeleteProperty(st, id, p).outcome == Resolved(true)
    requires Parent(st[id].doc, p).Some? && Parent(st[id].doc, p).value.Arr?
    ensures GetProperty(DeleteProperty(st, id, p).store, id, p).outcome == Resolved(Found(Null))
    ensures DeleteProperty(DeleteProperty(st, id, p).store, id, p).outcome == Resolved(true)
  {
    var d := st[id].doc;
    var after := DeleteProperty(st, id, p).store;
    assert after[id].doc == Unset(d, p);
    UnsetRemoves(d, p);
  }

  /** A delete changes no other path of the student: paths that do not extend the deleted one
      keep their presence, and paths that neither prefix nor extend it keep their value. */
  lemma DeletePropertyFrame(st: Store, id: StudentId, p: Path, q: Path)
    requires !(p <= q) && !(q <= p)
    ensures GetProperty(DeleteProperty(st, id, p).store, id, q).outcome == GetProperty(st, id, q).outcome
  {
    if DeleteProperty(st, id, p).outcome == Resolved(true) {
      var after := DeleteProperty(st, id, p).store;
      assert after[id].doc == Unset(st[id].doc, p);
      UnsetFrame(st[id].doc, p, q);
    }
  }
}

=== FILE: students.dfy ===
/** The student store: one JSON document per student id, read whole, changed through a
    property path and written back whole. The file system is a map from student id to what
    reading that student's file yields; an id with no entry has no file. */
module Students {
  import opened Options
  import opened JsonValues
  import opened PathAccess

  /** The errno and code Node.js attaches to a read of a file that does not exist. */
  const ENOENT_ERRNO: int := -2
  const ENOENT: string := "ENOENT"

  /** What an operation can throw. */
  datatype Fault =
    | SystemError(errno: int, code: string)  // fs.readFile failed
    | SyntaxError                            // JSON.parse rejected the file's text
    | InvalidArgType                         // fs.writeFile was handed `undefined` as data

  /** What reading one student's file yields: a parsed document, text that is not JSON, or a
      read failure other than a missing file (a permission error, a directory, ...). */
  datatype Entry =
    | Parsed(doc: Json)
    | Unparsable
    | Unreadable(errno: int, code: string)

  /** A student id; the file it names is `<DATA_DIR>/<id>.json`. */
  type StudentId = string

  type Store = map<StudentId, Entry>

  /** `getProperty`'s result: `{ isFound: false }` or `{ isFound: true, value }`. */
  datatype Lookup = NotFound | Found(value: Json)

  /** How an operation's promise settles. */
  datatype Outcome<+T> = Resolved(value: T) | Rejected(fault: Fault)

  /** The store after an operation, with the operation's outcome. */
  datatype Step<+T> = Step(store: Store, outcome: Outcome<T>)

  /** The condition each `catch` tests: errno -2 with code ENOENT, a file that is not there. */
  predicate IsFileNotFound(f: Fault) {
    f.SystemError? && f.errno == ENOENT_ERRNO && f.code == ENOENT
  }

  /** `JSON.parse(await fs.readFile(studentFile))`: the student's document, or what was thrown. */
  function Load(st: Store, id: StudentId): (r: Result<Json, Fault>)
    ensures id !in st ==> r.Err? && IsFileNotFound(r.error)
    ensures id in st && st[id].Parsed? <==> r.Ok?
    ensures r.Ok? ==> r.value == st[id].doc
    ensures id in st && st[id].Unparsable? ==> r == Err(SyntaxError)
    ensures id in st && st[id].Unreadable? ==> r == Err(SystemError(st[id].errno, st[id].code))
  {
    if id !in st then Err(SystemError(ENOENT_ERRNO, ENOENT))
    else
      match st[id]
      case Parsed(d) => Ok(d)
      case Unparsable => Err(SyntaxError)
      case Unreadable(errno, code) => Err(SystemError(errno, code))
  }

  /** True when reading the student's file throws something other than "file not found". */
  predicate ReadFails(st: Store, id: StudentId) {
    id in st && !st[id].Parsed? && !(st[id].Unreadable? && st[id].errno == ENOENT_ERRNO && st[id].code == ENOENT)
  }

  /** True when the student's file reads as "not found", whether or not it has an entry. */
  predicate ReadsAsMissing(st: Store, id: StudentId) {
    id !in st || (st[id].Unreadable? && st[id].errno == ENOENT_ERRNO && st[id].code == ENOENT)
  }

  /** `fs.writeFile(studentFile, JSON.stringify(student))`. JSON.stringify(undefined) is
      undefined, which fs.promises.writeFile refuses as data, so nothing is written then. */
  function Persist(st: Store, id: StudentId, student: Option<Json>): (r: Step<()>)
    ensures student.None? ==> r == Step(st, Rejected(InvalidArgType))
    ensures student.Some? ==> r.outcome.Resolved? && r.store.Keys == st.Keys + {id}
    ensures student.Some? ==> Load(r.store, id) == Ok(student.value)
    ensures forall other :: other in st && other != id ==> other in r.store && r.store[other] == st[other]
  {
    match student
    case None => Step(st, Rejected(InvalidArgType))
    case Some(d) => Step(st[id := Parsed(d)], Resolved(()))
  }

  /** `getProperty(studentId, propertyPath)`. */
  function GetProperty(st: Store, id: StudentId, p: Path): (r: Step<Lookup>)
    ensures r.store == st
    ensures id !in st ==> r.outcome == Resolved(NotFound)
    ensures id in st && st[id].Unparsable? ==> r.outcome == Rejected(SyntaxError)
    ensures r.outcome.Rejected? <==> ReadFails(st, id)
    ensures ReadFails(st, id) ==> r.outcome == Rejected(Load(st, id).error)
    ensures r.outcome.Resolved? && r.outcome.value.Found? <==>
              id in st && st[id].Parsed? && Has(st[id].doc, p)
    ensures r.outcome.Resolved? && r.outcome.value.Found? ==>
              Get(st[id].doc, p) == Some(r.outcome.value.value)
  {
    match Load(st, id)
    case Err(f) =>
      if IsFileNotFound(f) then Step(st, Resolved(NotFound)) else Step(st, Rejected(f))
    case Ok(student) =>
      if !Has(student, p) then Step(st, Resolved(NotFound))
      else Step(st, Resolved(Found(Get(student, p).value)))
  }

  /** `setProperty(studentId, propertyPath, value)`. When the file is missing, `student`
      is still undefined: lodash `set` hands undefined back, and the write then throws. */
  function SetProperty(st: Store, id: StudentId, p: Path, v: Json): (r: Step<()>)
    ensures r.outcome.Rejected? ==> r.store == st
    ensures ReadFails(st, id) ==> r.outcome == Rejected(Load(st, id).error)
    ensures id in st && st[id].Unparsable? ==> r.outcome == Rejected(SyntaxError)
    ensures ReadsAsMissing(st, id) ==> r == Step(st, Rejected(InvalidArgType))
    ensures r.outcome.Resolved? <==> id in st && st[id].Parsed?
    ensures r.outcome.Resolved? ==> r.store.Keys == st.Keys && r.store[id].Parsed?
    ensures r.outcome.Resolved? ==> r.store[id].doc == Set(st[id].doc, p, v)
    ensures forall other :: other in st && other != id ==> other in r.store && r.store[other] == st[other]
  {
    match Load(st, id)
    case Err(f) =>
      if !IsFileNotFound(f) then Step(st, Rejected(f))
      else Persist(st, id, None)
    case Ok(student) =>
      Persist(st, id, Some(Set(student, p, v)))
  }

  /** `deleteProperty(studentId, propertyPath)`: the result is `isFound`. */
  function DeleteProperty(st: Store, id: StudentId, p: Path): (r: Step<bool>)
    ensures id !in st ==> r == Step(st, Resolved(false))
    ensures id in st && st[id].Unparsable? ==> r == Step(st, Rejected(SyntaxError))
    ensures r.outcome.Rejected? <==> ReadFails(st, id)
    ensures ReadFails(st, id) ==> r.outcome == Rejected(Load(st, id).error)
    ensures r.outcome == Resolved(true) <==> id in st && st[id].Parsed? && Has(st[id].doc, p)
    ensures r.outcome != Resolved(true) ==> r.store == st
    ensures r.outcome == Resolved(true) ==> r.store.Keys == st.Keys && r.store[id].Parsed?
    ensures r.outcome == Resolved(true) ==> r.store[id].doc == Unset(st[id].doc, p)
    ensures forall other :: other in st && other != id ==> other in r.store && r.store[other] == st[other]
  {
    match Load(st, id)
    case Err(f) =>
      if IsFileNotFound(f) then Step(st, Resolved(false)) else Step(st, Rejected(f))
    case Ok(student) =>
      if !Has(student, p) then Step(st, Resolved(false))
      else
        var written := Persist(st, id, Some(Unset(student, p)));
        Step(written.store, Resolved(true))
  }

  /** `setProperty` as its test title at test.js:35 has it: a missing file is treated as
      the empty object `{}`, so the first write creates the student's document. */
  function SetPropertyCreating(st: Store, id: StudentId, p: Path, v: Json): (r: Step<()>)
    ensures r.outcome.Rejected? ==> r.store == st
    ensures ReadFails(st, id) ==> r.outcome == Rejected(Load(st, id).error)
    ensures r.outcome.Resolved? <==> !ReadFails(st, id)
    ensures r.outcome.Resolved? ==> r.store.Keys == st.Keys + {id} && r.store[id].Parsed?
    ensures ReadsAsMissing(st, id) ==> r.store[id].doc.Obj?
    ensures r.outcome.Resolved? ==>
              r.store[id].doc == Set(if ReadsAsMissing(st, id) then EmptyObject else st[id].doc, p, v)
    ensures forall other :: other in st && other != id ==> other in r.store && r.store[other] == st[other]
  {
    match Load(st, id)
    case Err(f) =>
      if !IsFileNotFound(f) then Step(st, Rejected(f))
      else Persist(st, id, Some(Set(EmptyObject, p, v)))
    case Ok(student) =>
      Persist(st, id, Some(Set(student, p, v)))
  }
}
